=== FILE: README.md ===
# EcoWaste admin dashboard — a functional model in Dafny

EcoWaste is a browser dashboard for a municipal waste-management platform.
Citizens file complaints, administrators assign them to field workers, users
file reports about the outcome, and users collect "green credits". The backend
owns the real rules. This project models the small pieces of logic that live
in the dashboard itself, as immutable datatypes and pure functions:

- `Common` (`common.dfy`): `Option`, `Reply` (a backend answer: `success: true`
  with a payload, `success: false`, or a thrown request), status badges, and the
  decimal text of an integer.
- `Complaints` (`complaints.dfy`): the complaints view. It covers the status
  vocabulary and its badge fallback, the replace-by-id merge of a returned record,
  the per-status counters, the action each status offers, and the assign-form guard.
- `Credits` (`credits.dfy`): the credits view. It covers add-credits validation and
  its balance merge, the four credit levels, the total, eligible and average
  counters, the five-entry window of recent redeem codes, and the owner line of a code.
- `Reports` (`reports.dfy`): the report review workflow. Statuses go
  pending → reviewed → resolved. The module covers the status-overwrite merge,
  the counters and the priority banner.
- `Onboarding` (`onboarding.dfy`): the four-slide training slideshow: slide
  counter, completion, progress bar, the watching flag, and the timer that the
  watch button arms.
- `Session` (`session.dfy`): the session store. It holds the current user over a
  key/value browser storage, with startup restore, login, logout and credit update.

Each event handler is a transition, or for the assign handler two (request
started, reply merged). A transition takes the view's state and the backend's
reply as inputs and returns the next state. Status fields stay
`string`, because the backend may send any text; each module pairs them with an
enumeration of the known statuses and a `ParseStatus`.

Two consequences of following the code closely:

- The assign handler does not change the status itself. It stores whatever
  complaint record the backend returns in place of the one with the requested
  id (`Complaints.MergeReply`).
- The session store has no sign-up and no hosted-backend variant, so neither
  is modelled.

## Model

| member | source | states |
|---|---|---|
| Complaints.ParseStatus | src/components/ComplaintsManager.tsx:27 | recognises exactly the four status texts, and rejects any text that is not one of their names |
| Complaints.ParseStatusName | src/components/ComplaintsManager.tsx:27 | parsing the name of a known status gives back that status |
| Complaints.StatusBadge | src/components/ComplaintsManager.tsx:130-138 | total on all strings: a known status gets its configured badge, any other text gets the Pending badge |
| Complaints.BadgeCaptionsDistinct | src/components/ComplaintsManager.tsx:131-136 | distinct known statuses have distinct badge captions |
| Complaints.CountStatus | src/components/ComplaintsManager.tsx:194 | a status counter is at most the list length, and it is positive iff some complaint has that status |
| Complaints.StatusCountsPartition | src/components/ComplaintsManager.tsx:192-224 | pending + assigned + completed + cancelled ≤ total, with equality iff every status is known; so pending + assigned + completed is the total minus the cancelled count |
| Complaints.EmptyPlaceholderCounters | src/components/ComplaintsManager.tsx:229-238 | the "No Complaints" placeholder shows iff the counters sum to 0 over a list of known statuses, i.e. iff the list is empty |
| Complaints.ReplaceById | src/components/ComplaintsManager.tsx:85-87 | same length; each position whose id matches holds the new record, every other position is unchanged |
| Complaints.ReplaceByIdTouchesOne | src/components/ComplaintsManager.tsx:85-87 | with unique ids, exactly the matching complaint is replaced and all others stay |
| Complaints.ReplaceByIdAbsent | src/components/ComplaintsManager.tsx:85-87 | a record for an id not in the list leaves the list unchanged |
| Complaints.ReplaceByIdIdempotent | src/components/ComplaintsManager.tsx:112-114 | merging the same record twice is the same as merging it once |
| Complaints.CountAfterReplace | src/components/ComplaintsManager.tsx:111-114 | with unique ids, a merge moves exactly one complaint from the old record's status counter to the new record's |
| Complaints.LoadData | src/components/ComplaintsManager.tsx:56-74 | when both fetches succeed both lists are replaced; when either fails both are kept; loading ends either way |
| Complaints.MergeReply | src/components/ComplaintsManager.tsx:84-87 | a success reply replaces the complaint with the requested id by the returned record; a declined or thrown request leaves the list unchanged |
| Complaints.BeginAssign | src/components/ComplaintsManager.tsx:76-77 | while a request is in flight, the assign form of that complaint, and of no other, is loading |
| Complaints.FinishAssign | src/components/ComplaintsManager.tsx:84-102 | the reply is merged, the workers are unchanged, and no assign form is left loading |
| Complaints.UpdateComplaintStatus | src/components/ComplaintsManager.tsx:105-128 | the list takes the backend's returned record; the requested status text does not reach the list |
| Complaints.OfferedAction | src/components/ComplaintsManager.tsx:318-347 | "Assign Worker" iff the status is pending; "Mark Complete" iff the status is assigned, and it always requests completed; any other status offers nothing |
| Complaints.OfferedStatusMovesForward | src/components/ComplaintsManager.tsx:339-343 | the offered status change moves a complaint strictly forward (assigned to completed) |
| Complaints.AssignSubmit | src/components/ComplaintsManager.tsx:366-371 | submitting passes on the selected worker id iff a worker is selected; otherwise nothing happens |
| Complaints.AssignButtonSubmits | src/components/ComplaintsManager.tsx:393-398 | with `isLoading` wired to "this complaint is being assigned" (line 333), a complaint's assign button is disabled while that complaint's request is in flight; starting an assignment disables exactly its own button; when a button is enabled, pressing it always assigns |
| Credits.TotalBoundsBalances | src/components/CreditsManager.tsx:191 | "Total Credits" is the sum of the balances: when none is negative it is non-negative and no single balance exceeds it |
| Credits.ReduceCreditsIsTotal | src/components/CreditsManager.tsx:191 | the left fold `reduce((total, user) => total + user.credits, 0)` equals the recursive sum `TotalCredits` plus the seed |
| Credits.AddToUser | src/components/CreditsManager.tsx:89-93 | same length; each user with the id gains exactly the amount, and every other user is unchanged |
| Credits.TotalAfterAdd | src/components/CreditsManager.tsx:89-93 | the total credits grow by the amount once per user carrying the id |
| Credits.TotalAfterAddUnique | src/components/CreditsManager.tsx:188-194 | with unique ids, adding to a listed user raises "Total Credits" by exactly the amount |
| Credits.TotalAfterAddAbsent | src/components/CreditsManager.tsx:89-93 | a selected user who is no longer listed gains nothing, and the total is unchanged |
| Credits.LoadData | src/components/CreditsManager.tsx:47-65 | when both fetches succeed, users and codes are replaced; when either fails both are kept; loading ends either way |
| Credits.AddCredits | src/components/CreditsManager.tsx:67-112 | a request is made iff a user is selected, the text is non-empty and the amount is > 0; with no selection or empty text nothing changes; an amount ≤ 0 is rejected with nothing changed; only a success reply bumps the selected user and clears the selection and the text; the busy flag ends off |
| Credits.AddCreditsRaisesTotal | src/components/CreditsManager.tsx:67-112 | a successful add for a listed user with unique ids keeps the list length and raises the total by the amount |
| Credits.EnabledButtonSubmits | src/components/CreditsManager.tsx:370-374 | whenever the Add Credits button is enabled, a submission gets past the selection check |
| Credits.SelectUser | src/components/CreditsManager.tsx:346 | clicking a user makes exactly that user the selection; the list, the amount text and the busy flag stay |
| Credits.SetAmountText | src/components/CreditsManager.tsx:363 | typing sets the amount text; the list, the selection and the busy flag stay |
| Credits.FormFlowRequests | src/components/CreditsManager.tsx:340-374 | clicking a user and typing a non-empty amount, while no add is in flight, enables the button; a positive amount then requests the add, and a success reply adds exactly that amount to the clicked user's id |
| Credits.LevelOf | src/components/CreditsManager.tsx:114-119 | the level's rank is the number of the inclusive thresholds 50, 100 and 200 that the balance reaches |
| Credits.LevelMonotone | src/components/CreditsManager.tsx:114-119 | more credits never give a lower level |
| Credits.EligibleIffHighLevel | src/components/CreditsManager.tsx:114-119 | a user is eligible for rewards (credits ≥ 100) iff their level is Green Hero or Eco Champion, i.e. iff the level caption reads "Green Hero" or "Eco Champion" |
| Credits.EligibleCount | src/components/CreditsManager.tsx:200 | the eligible counter is at most the user count; it equals the count iff every user is eligible, and is positive iff some user is |
| Credits.EligibleAfterAdd | src/components/CreditsManager.tsx:89-93 | with unique ids, adding a positive amount to a listed user raises the eligible counter by one iff that user crosses 100 credits, and otherwise leaves it unchanged |
| Credits.RoundedQuotient | src/components/CreditsManager.tsx:218 | `Math.round(total / count)` is the integer r with count·(2r−1) ≤ 2·total < count·(2r+1): the nearest integer, halves rounded up |
| Credits.AverageCredits | src/components/CreditsManager.tsx:218 | 0 for an empty user list; otherwise the total over the count, rounded half up |
| Credits.RecentCodes | src/components/CreditsManager.tsx:279-316 | lists the first min(5, number of codes) codes, in order; it leaves codes out iff "View All Redemptions" shows (more than 5); it is empty iff the no-codes placeholder shows |
| Credits.FindUser | src/components/CreditsManager.tsx:288 | finds the first user with the code's user id, or reports that there is none |
| Credits.OwnerCaption | src/components/CreditsManager.tsx:288-294 | shows the name of the first user with the id; shows `User <id>` when there is no such user or the name is empty |
| Reports.ParseStatus | src/components/ReportsManager.tsx:22 | recognises exactly the three review status texts |
| Reports.StatusBadge | src/components/ReportsManager.tsx:75-82 | a known status gets its own badge; any other text gets the Pending badge |
| Reports.OfferedTransitions | src/components/ReportsManager.tsx:253-283 | offers something iff the status is pending or reviewed, and every offered target is strictly later in pending < reviewed < resolved |
| Reports.OffersCharacterised | src/components/ReportsManager.tsx:253-283 | the offered moves are exactly pending→reviewed, pending→resolved and reviewed→resolved; resolved is terminal |
| Reports.UnknownStatusLooksPending | src/components/ReportsManager.tsx:75-82 | an unknown status is drawn with the Pending badge but offers no review action, unlike a pending report |
| Reports.SetStatusById | src/components/ReportsManager.tsx:57-59 | same length; each matching report takes the new status, and every other report is unchanged |
| Reports.SetStatusByIdAbsent | src/components/ReportsManager.tsx:57-59 | an update for an id that is not listed leaves the list unchanged |
| Reports.CountAfterSetStatus | src/components/ReportsManager.tsx:57-59 | with unique ids, an update moves exactly the updated report from its old status' counter to the new status' counter |
| Reports.UpdateReportStatus | src/components/ReportsManager.tsx:50-73 | on success the matching report gets the requested status and keeps every other field, and other reports are unchanged; a declined or thrown request leaves the list unchanged |
| Reports.CountStatus | src/components/ReportsManager.tsx:138 | a counter is at most the list length, and it is positive iff some report has that status |
| Reports.StatusCountsPartition | src/components/ReportsManager.tsx:134-161 | pending + reviewed + resolved ≤ the list length, with equality iff every status is known |
| Reports.UpdateKeepsCountersComplete | src/components/ReportsManager.tsx:56-59 | an update to a known status keeps every status known, so the counters still sum to the list length |
| Reports.PriorityBannerIffPending | src/components/ReportsManager.tsx:292 | "Priority Action Required" shows iff some report is pending |
| Reports.EmptyPlaceholderCounters | src/components/ReportsManager.tsx:164-173 | when the "No Reports" placeholder shows, all three counters are 0 and there is no banner |
| Reports.LoadReports | src/components/ReportsManager.tsx:35-48 | a fetched list replaces the reports, a failed fetch keeps them, and loading ends either way |
| Onboarding.NextSlide | src/components/AwarenessVideo.tsx:53-59 | before the last slide, Next moves exactly one slide on; on the last slide it fires completion and the slide does not change; the index stays in range |
| Onboarding.StartWatching | src/components/AwarenessVideo.tsx:61-67 | raises the watching flag and arms the timer, which captures the slide shown now; the slide does not change |
| Onboarding.Progress | src/components/AwarenessVideo.tsx:51 | equals 25·(slide index + 1): one of 25, 50, 75 or 100, and 100 iff on the last slide |
| Onboarding.ProgressAdvancesByQuarter | src/components/AwarenessVideo.tsx:51-55 | each move to the next slide raises the bar by exactly 25 |
| Onboarding.NextCaption | src/components/AwarenessVideo.tsx:206-213 | reads "Complete Training" iff on the last slide |
| Onboarding.Apply | src/components/AwarenessVideo.tsx:53-67 | completion fires only on the last slide, and only from an enabled Next or from a pending timer (which runs Next although the button is disabled); the slide moves forward by at most one; watching is never switched off; the index stays in range |
| Onboarding.Run | src/components/AwarenessVideo.tsx:53-67 | over any sequence of clicks and timer firings: the index stays in range, never goes back, and grows by at most one per event; watching stays on; completion fires only on slide index 3 |
| Onboarding.StuckAfterWatching | src/components/AwarenessVideo.tsx:61-67 | once the timer has fired, Next stays disabled and the watch button hidden, so no further event changes the slide or fires completion |
| Onboarding.RunFromInitialStaysValid | src/components/AwarenessVideo.tsx:21-22 | from the initial slide 0, every reachable state is a valid slide, and completion fires only on the last one |
| Session.Restore | src/contexts/AuthContext.tsx:34-43 | the `user` value is parsed iff both the `user` and `token` reads are truthy; a stored record becomes the user, the text `null` gives no user, and any other text is not a user record; when the parse gets through, loading ends and no user is set unless a record was stored |
| Common.NatTextValue | src/components/CreditsManager.tsx:294 | reading the decimal digits rendered for a number back gives that number |
| Common.DecimalText | src/components/CreditsManager.tsx:294 | the interpolated id is non-empty, starts with a minus sign iff it is negative, and is otherwise made of digits |
| Common.DecimalTextValue | src/components/CreditsManager.tsx:294 | the digits after an optional minus sign read back as the absolute value of the id |
| Session.Login | src/contexts/AuthContext.tsx:45-64 | answers true iff the reply is a success; then the user and both keys are set from the reply and other keys are unchanged; otherwise the user and the storage are unchanged |
| Session.Logout | src/contexts/AuthContext.tsx:66-71 | no user; exactly `user`, `token` and `hasSeenVideo` are removed and other keys are unchanged |
| Session.LogoutIdempotent | src/contexts/AuthContext.tsx:66-71 | logging out twice is the same as logging out once |
| Session.UpdateCredits | src/contexts/AuthContext.tsx:73-79 | logged out it is a no-op; logged in only `credits` changes (id, name, email and role kept), the stored user is rewritten, and the token and every other key are unchanged |
| Session.LoginThenRestore | src/contexts/AuthContext.tsx:34-57 | after a successful login, a reload restores the same user iff the token is non-empty |
| Session.LogoutThenRestore | src/contexts/AuthContext.tsx:34-71 | after logout, a reload finds no session |
| Session.UpdateCreditsThenRestore | src/contexts/AuthContext.tsx:73-79 | after a credit update with a token stored, a reload restores the updated user |

## Left out

- HTTP requests are not modelled: each backend answer is an input value (`Reply`, or an `Option` for fetches). Toasts, dialogs, icons, CSS and rendering are not modelled either. Error toasts do not change any state.
- Date formatting (`formatDate`) is not modelled: it is a locale-dependent library call.
- `parseInt` is not modelled: the parsed integer is an input. A parse that fails gives NaN, and the code's `<= 0` guard does not catch NaN. Because the amount is an integer here, that path is not represented.
- The badge lookup is modelled as a lookup of the object's own keys. A status text that names an inherited object property, such as `constructor`, would find that property instead; this is not modelled.
- Credit arithmetic and the average use unbounded integers and exact rationals, not IEEE doubles.
- `Onboarding.StartWatching`: the 2-second delay itself is not modelled; the timer is a pending event (`TimerFires`) that may come at any point after it is armed. The Skip button and the completion and skip callbacks are not modelled: they belong to the caller.
- `Session.Restore`: every plain text under `user` other than `null` is treated as not a user record. `JSON.parse` would accept other JSON texts, such as `{}` or `5`, and store the resulting non-user value as the current user; the `User` type cannot hold such values.
- React state batching and unmounting during a request are not modelled. Of the closures that capture state, only the timer's captured slide index is modelled.
- `Complaints.FinishAssign`, `Complaints.UpdateComplaintStatus`, `Credits.AddCredits`, `Reports.UpdateReportStatus`: the source merges each reply into the list captured when the handler started, so when two requests overlap, the later reply writes back a list without the earlier one's merge and that update is lost. The model merges every reply into the current list, so it keeps both updates.
- `Credits.AddCredits`: it is one transition from the click to the reply, so the busy flag is never observed raised. The disabled Add Credits button while a request is in flight is stated (`AddButtonEnabled`) but no model state reaches it.
- `localStorage` and JSON are modelled as a map from keys to typed values (`Stored`). A serialised user record is never empty.
- The `useAuth` guard that throws outside a provider, the login page's form wiring, and the `supabase` import (the credits view calls `axios` without importing it) are not modelled.

=== FILE: common.dfy ===
/**
 Shared vocabulary of the dashboard model: optional values, the three ways a
 backend mutation can come back, status badges, and the decimal rendering of
 an integer that the views interpolate into labels.
 */
module Common {

  /** A value that may be absent (`null`/`undefined` in the views). */
  datatype Option<+T> = None | Some(value: T)

  /**
    How a mutating request ends from the view's point of view: the backend
    answered with `success: true` (and its payload), answered with
    `success: false`, or the request threw (network or HTTP error).
   */
  datatype Reply<+T> = Succeeded(payload: T) | Declined | Thrown

  /** The visual variant of a status badge. */
  datatype BadgeVariant = Secondary | Default | Destructive

  /** A status badge as rendered: its caption and its variant (the icon is presentation only). */
  datatype Badge = Badge(caption: string, variant: BadgeVariant)

  function DigitChar(d: int): (c: char)
    requires 0 <= d < 10
    ensures '0' <= c <= '9'
    ensures c as int - '0' as int == d
  {
    "0123456789"[d]
  }

  /** Decimal text of a natural number, most significant digit first. */
  function NatText(n: nat): (r: string)
    ensures |r| >= 1
    ensures forall i :: 0 <= i < |r| ==> '0' <= r[i] <= '9'
    decreases n
  {
    if n < 10 then [DigitChar(n)] else NatText(n / 10) + [DigitChar(n % 10)]
  }

  /** The number a string of decimal digits denotes, most significant digit first. */
  function DigitsValue(s: string): nat
    requires forall i :: 0 <= i < |s| ==> '0' <= s[i] <= '9'
  {
    if s == [] then 0
    else DigitsValue(s[..|s| - 1]) * 10 + (s[|s| - 1] as int - '0' as int)
  }

  /** Reading the rendered digits back gives the number. */
  lemma {:induction false} NatTextValue(n: nat)
    ensures DigitsValue(NatText(n)) == n
    decreases n
  {
    if n >= 10 {
      var t := NatText(n / 10) + [DigitChar(n % 10)];
      assert t[..|t| - 1] == NatText(n / 10);
      NatTextValue(n / 10);
    }
  }

  /** Decimal text of an integer as a template literal renders it. */
  function DecimalText(n: int): (r: string)
    ensures |r| >= 1
    ensures r[0] == '-' <==> n < 0
    ensures forall i :: 0 <= i < |r| ==> '0' <= r[i] <= '9' || (i == 0 && n < 0)
  {
    if n < 0 then "-" + NatText(-n) else NatText(n)
  }

  /**
    Reading the decimal text back gives the integer: the digits after an
    optional minus sign denote the absolute value.
   */
  lemma {:induction false} DecimalTextValue(n: int)
    ensures n >= 0 ==> DigitsValue(DecimalText(n)) == n
    ensures n < 0 ==> DigitsValue(DecimalText(n)[1..]) == -n
  {
    if n < 0 {
      assert DecimalText(n)[1..] == NatText(-n);
      NatTextValue(-n);
    } else {
      NatTextValue(n);
    }
  }
}

=== FILE: complaints.dfy ===
/**
 The complaint list kept by the admin complaints view: complaint and worker
 records, the status vocabulary and its badge fallback, the replace-by-id merge
 of a record returned by the backend, the per-status counters, which admin
 action each status offers, and the guard of the assign-worker form.
 */
module Complaints {
  import opened Common

  datatype Worker = Worker(id: int, name: string, phone: string, area: string)

  /** A complaint as fetched; `status` is the backend's text, which may be any string. */
  datatype Complaint = Complaint(
    id: int,
    userId: int,
    name: string,
    location: string,
    description: string,
    photo: Option<string>,
    status: string,
    assignedWorker: Option<Worker>,
    createdAt: string,
    updatedAt: string)

  /** The four statuses the view knows about. */
  datatype Status = Pending | Assigned | Completed | Cancelled

  function StatusName(s: Status): string {
    match s
    case Pending => "pending"
    case Assigned => "assigned"
    case Completed => "completed"
    case Cancelled => "cancelled"
  }

  /** Progress of a complaint: assignment and completion only ever move it up. */
  function Rank(s: Status): nat {
    match s
    case Pending => 0
    case Assigned => 1
    case Completed => 2
    case Cancelled => 2
  }

  /** Recognises the backend text of a known status. */
  function ParseStatus(text: string): (r: Option<Status>)
    ensures r.Some? ==> StatusName(r.value) == text
    ensures r.None? ==> forall s: Status :: StatusName(s) != text
  {
    if text == "pending" then Some(Pending)
    else if text == "assigned" then Some(Assigned)
    else if text == "completed" then Some(Completed)
    else if text == "cancelled" then Some(Cancelled)
    else None
  }

  lemma ParseStatusName(s: Status)
    ensures ParseStatus(StatusName(s)) == Some(s)
  {
  }

  /** The badge configured for each known status. */
  function StatusBadgeOf(s: Status): Badge {
    match s
    case Pending => Badge("Pending", Secondary)
    case Assigned => Badge("Assigned", Default)
    case Completed => Badge("Completed", Default)
    case Cancelled => Badge("Cancelled", Destructive)
  }

  /**
    The badge drawn for a complaint's status text: the configured badge of a
    known status, and the `pending` badge for any other text.
   */
  function StatusBadge(text: string): (b: Badge)
    ensures ParseStatus(text).Some? ==> b == StatusBadgeOf(ParseStatus(text).value)
    ensures ParseStatus(text).None? ==> b == StatusBadgeOf(Pending)
  {
    if text == "assigned" then Badge("Assigned", Default)
    else if text == "completed" then Badge("Completed", Default)
    else if text == "cancelled" then Badge("Cancelled", Destructive)
    else Badge("Pending", Secondary)
  }

  /** Distinct known statuses get distinct captions, so a badge names its status. */
  lemma BadgeCaptionsDistinct(s: Status, t: Status)
    requires s != t
    ensures StatusBadgeOf(s).caption != StatusBadgeOf(t).caption
  {
  }

  /** Number of complaints whose status text is exactly `status`. */
  function CountStatus(cs: seq<Complaint>, status: string): (n: nat)
    ensures n <= |cs|
    ensures n > 0 <==> exists i :: 0 <= i < |cs| && cs[i].status == status
  {
    if cs == [] then 0
    else
      var rest := CountStatus(cs[1..], status);
      assert forall i :: 1 <= i < |cs| ==> cs[i] == cs[1..][i - 1];
      (if cs[0].status == status then 1 else 0) + rest
  }

  predicate AllStatusesKnown(cs: seq<Complaint>) {
    forall i :: 0 <= i < |cs| ==> ParseStatus(cs[i].status).Some?
  }

  function KnownStatusTotal(cs: seq<Complaint>): nat {
    CountStatus(cs, "pending") + CountStatus(cs, "assigned")
    + CountStatus(cs, "completed") + CountStatus(cs, "cancelled")
  }

  /**
    The four status counters never exceed the total, and they add up to it
    exactly when every complaint carries a known status. In particular
    pending + assigned + completed is the total minus the cancelled count.
   */
  lemma {:induction false} StatusCountsPartition(cs: seq<Complaint>)
    ensures KnownStatusTotal(cs) <= |cs|
    ensures KnownStatusTotal(cs) == |cs| <==> AllStatusesKnown(cs)
  {
    if cs != [] {
      StatusCountsPartition(cs[1..]);
      assert forall i :: 1 <= i < |cs| ==> cs[i] == cs[1..][i - 1];
      if AllStatusesKnown(cs[1..]) {
        assert AllStatusesKnown(cs) <==> ParseStatus(cs[0].status).Some?;
      } else {
        var j :| 0 <= j < |cs[1..]| && ParseStatus(cs[1..][j].status).None?;
        assert ParseStatus(cs[j + 1].status).None?;
      }
    }
  }

  /** The "No Complaints" placeholder replaces the list. */
  predicate ShowsEmptyPlaceholder(cs: seq<Complaint>) {
    |cs| == 0
  }

  lemma EmptyPlaceholderCounters(cs: seq<Complaint>)
    ensures ShowsEmptyPlaceholder(cs) <==> KnownStatusTotal(cs) == 0 && AllStatusesKnown(cs)
  {
    StatusCountsPartition(cs);
  }

  predicate IdsUnique(cs: seq<Complaint>) {
    forall i, j :: 0 <= i < j < |cs| ==> cs[i].id != cs[j].id
  }

  /** The list with every complaint whose id is `id` replaced by `c`. */
  function ReplaceById(cs: seq<Complaint>, id: int, c: Complaint): (r: seq<Complaint>)
    ensures |r| == |cs|
    ensures forall i :: 0 <= i < |cs| ==> r[i] == (if cs[i].id == id then c else cs[i])
  {
    if cs == [] then []
    else [if cs[0].id == id then c else cs[0]] + ReplaceById(cs[1..], id, c)
  }

  /** With unique ids, exactly the entry at the matching position changes. */
  lemma ReplaceByIdTouchesOne(cs: seq<Complaint>, id: int, c: Complaint, k: int)
    requires IdsUnique(cs) && 0 <= k < |cs| && cs[k].id == id
    ensures ReplaceById(cs, id, c)[k] == c
    ensures forall i :: 0 <= i < |cs| && i != k ==> ReplaceById(cs, id, c)[i] == cs[i]
  {
  }

  /** A record for an id that is not in the list changes nothing. */
  lemma ReplaceByIdAbsent(cs: seq<Complaint>, id: int, c: Complaint)
    requires forall i :: 0 <= i < |cs| ==> cs[i].id != id
    ensures ReplaceById(cs, id, c) == cs
  {
  }

  lemma ReplaceByIdIdempotent(cs: seq<Complaint>, id: int, c: Complaint)
    ensures ReplaceById(ReplaceById(cs, id, c), id, c) == ReplaceById(cs, id, c)
  {
  }

  /**
    Merging one record for a unique id moves exactly one complaint between
    counters: the replaced one leaves its status' counter, the new one joins its own.
   */
  lemma {:induction false} CountAfterReplace(cs: seq<Complaint>, id: int, c: Complaint, k: int, status: string)
    requires IdsUnique(cs) && 0 <= k < |cs| && cs[k].id == id
    ensures CountStatus(ReplaceById(cs, id, c), status)
            == CountStatus(cs, status) - (if cs[k].status == status then 1 else 0)
                                       + (if c.status == status then 1 else 0)
  {
    var r := ReplaceById(cs, id, c);
    assert r[1..] == ReplaceById(cs[1..], id, c);
    if k == 0 {
      ReplaceByIdAbsent(cs[1..], id, c);
    } else {
      CountAfterReplace(cs[1..], id, c, k - 1, status);
    }
  }

  /** The complaints view: its lists, the loading flag, and the complaint being assigned. */
  datatype ComplaintsView = ComplaintsView(
    complaints: seq<Complaint>,
    workers: seq<Worker>,
    loading: bool,
    assigningTo: Option<int>)

  /**
    The initial joint fetch: both lists replace the view's when both requests
    succeed (`fetched` holds them); if either fails both are discarded. Loading ends either way.
   */
  function LoadData(v: ComplaintsView, fetched: Option<(seq<Complaint>, seq<Worker>)>): (r: ComplaintsView)
    ensures !r.loading && r.assigningTo == v.assigningTo
    ensures fetched.Some? ==> r.complaints == fetched.value.0 && r.workers == fetched.value.1
    ensures fetched.None? ==> r.complaints == v.complaints && r.workers == v.workers
  {
    match fetched
    case Some(lists) => v.(complaints := lists.0, workers := lists.1, loading := false)
    case None => v.(loading := false)
  }

  /**
    Merge of a mutation reply: a `success` reply puts its complaint in place of
    the complaint with the requested id; a declined or failed request leaves the list as it was.
   */
  function MergeReply(cs: seq<Complaint>, complaintId: int, reply: Reply<Complaint>): (r: seq<Complaint>)
    ensures |r| == |cs|
    ensures !reply.Succeeded? ==> r == cs
    ensures reply.Succeeded? ==>
      forall i :: 0 <= i < |cs| ==> r[i] == (if cs[i].id == complaintId then reply.payload else cs[i])
  {
    if reply.Succeeded? then ReplaceById(cs, complaintId, reply.payload) else cs
  }

  /** The assign form of a complaint shows its loading state while that complaint is being assigned. */
  predicate AssignFormLoading(v: ComplaintsView, complaintId: int) {
    v.assigningTo == Some(complaintId)
  }

  /** First half of an assignment: the request for `complaintId` is in flight. */
  function BeginAssign(v: ComplaintsView, complaintId: int): (r: ComplaintsView)
    ensures AssignFormLoading(r, complaintId)
    ensures forall other :: other != complaintId ==> !AssignFormLoading(r, other)
    ensures r.complaints == v.complaints && r.workers == v.workers
  {
    v.(assigningTo := Some(complaintId))
  }

  /** Second half of an assignment: the reply is merged and no form is loading any more. */
  function FinishAssign(v: ComplaintsView, complaintId: int, reply: Reply<Complaint>): (r: ComplaintsView)
    ensures forall id :: !AssignFormLoading(r, id)
    ensures r.complaints == MergeReply(v.complaints, complaintId, reply)
    ensures r.workers == v.workers && r.loading == v.loading
  {
    v.(complaints := MergeReply(v.complaints, complaintId, reply), assigningTo := None)
  }

  /**
    A status change request: the requested status text only feeds the toast;
    the list takes whatever complaint the backend returns.
   */
  function UpdateComplaintStatus(v: ComplaintsView, complaintId: int, status: string, reply: Reply<Complaint>): (r: ComplaintsView)
    ensures r.complaints == MergeReply(v.complaints, complaintId, reply)
    ensures r.workers == v.workers && r.loading == v.loading && r.assigningTo == v.assigningTo
  {
    v.(complaints := MergeReply(v.complaints, complaintId, reply))
  }

  /** The admin action a complaint card offers. */
  datatype AdminAction = OfferAssign | OfferStatus(target: string) | NoAction

  /**
    Only a pending complaint offers worker assignment, only an assigned one
    offers "Mark Complete" (which always requests `completed`), and every other
    status text offers nothing.
   */
  function OfferedAction(status: string): (a: AdminAction)
    ensures a.OfferAssign? <==> ParseStatus(status) == Some(Pending)
    ensures a.OfferStatus? <==> ParseStatus(status) == Some(Assigned)
    ensures a.OfferStatus? ==> ParseStatus(a.target) == Some(Completed)
  {
    if status == "pending" then OfferAssign
    else if status == "assigned" then OfferStatus("completed")
    else NoAction
  }

  /** A status change offered by the view always moves the complaint forward. */
  lemma OfferedStatusMovesForward(status: string)
    requires OfferedAction(status).OfferStatus?
    ensures ParseStatus(status).Some? && ParseStatus(OfferedAction(status).target).Some?
    ensures Rank(ParseStatus(OfferedAction(status).target).value) > Rank(ParseStatus(status).value)
  {
  }

  /**
    Submitting the assign form: with a worker selected (the radio value, a
    worker id as text, parsed to `parsed`) the chosen id is passed on; with no selection nothing happens.
   */
  function AssignSubmit(selected: string, parsed: int): (r: Option<int>)
    ensures r.Some? <==> selected != ""
    ensures r.Some? ==> r.value == parsed
  {
    if selected != "" then Some(parsed) else None
  }

  predicate AssignButtonEnabled(selected: string, isLoading: bool) {
    selected != "" && !isLoading
  }

  /**
    The assign button of complaint `complaintId` is disabled while that
    complaint's request is in flight, and pressing an enabled one always
    assigns. Starting an assignment disables exactly its own button; the
    buttons of other complaints depend on their selection alone.
   */
  lemma AssignButtonSubmits(v: ComplaintsView, complaintId: int, selected: string, parsed: int)
    ensures AssignFormLoading(v, complaintId) ==> !AssignButtonEnabled(selected, AssignFormLoading(v, complaintId))
    ensures AssignButtonEnabled(selected, AssignFormLoading(v, complaintId)) ==>
      AssignSubmit(selected, parsed) == Some(parsed)
    ensures !AssignButtonEnabled(selected, AssignFormLoading(BeginAssign(v, complaintId), complaintId))
    ensures forall other :: other != complaintId ==>
      (AssignButtonEnabled(selected, AssignFormLoading(BeginAssign(v, complaintId), other)) <==> selected != "")
  {
  }
}

=== FILE: credits.dfy ===
/**
 The credits ledger of the admin credits view: user balances and redeem
 codes, the add-credits form with its validation and its merge, the four
 credit levels, the aggregate counters, and the "recent redemptions" window.
 */
module Credits {
  import opened Common

  datatype User = User(id: int, name: string, email: string, credits: int)

  datatype RedeemCode = RedeemCode(id: int, code: string, userId: int, createdAt: string, redeemed: bool)

  /** Sum of all balances (the "Total Credits" counter). */
  function TotalCredits(users: seq<User>): int {
    if users == [] then 0 else users[0].credits + TotalCredits(users[1..])
  }

  /** When no balance is negative, the total is non-negative and no single balance exceeds it. */
  lemma {:induction false} TotalBoundsBalances(users: seq<User>)
    requires forall i :: 0 <= i < |users| ==> users[i].credits >= 0
    ensures TotalCredits(users) >= 0
    ensures forall i :: 0 <= i < |users| ==> users[i].credits <= TotalCredits(users)
  {
    if users != [] {
      assert forall i :: 1 <= i < |users| ==> users[i] == users[1..][i - 1];
      TotalBoundsBalances(users[1..]);
    }
  }

  /** The view's `reduce((total, user) => total + user.credits, 0)`: a fold from the left. */
  function ReduceCredits(total: int, users: seq<User>): int
    decreases users
  {
    if users == [] then total else ReduceCredits(total + users[0].credits, users[1..])
  }

  /** The left fold the view computes and the sum agree, from any starting total. */
  lemma {:induction false} ReduceCreditsIsTotal(total: int, users: seq<User>)
    ensures ReduceCredits(total, users) == total + TotalCredits(users)
    decreases users
  {
    if users != [] {
      ReduceCreditsIsTotal(total + users[0].credits, users[1..]);
    }
  }

  /** Number of users carrying the id `id`. */
  function CountId(users: seq<User>, id: int): (n: nat)
    ensures n <= |users|
  {
    if users == [] then 0 else (if users[0].id == id then 1 else 0) + CountId(users[1..], id)
  }

  predicate IdsUnique(users: seq<User>) {
    forall i, j :: 0 <= i < j < |users| ==> users[i].id != users[j].id
  }

  /** Every user with id `id` gains `amount` credits; nothing else changes. */
  function AddToUser(users: seq<User>, id: int, amount: int): (r: seq<User>)
    ensures |r| == |users|
    ensures forall i :: 0 <= i < |users| ==>
      r[i] == (if users[i].id == id then users[i].(credits := users[i].credits + amount) else users[i])
  {
    if users == [] then []
    else
      [if users[0].id == id then users[0].(credits := users[0].credits + amount) else users[0]]
      + AddToUser(users[1..], id, amount)
  }

  /** The total grows by the amount once per user carrying the id. */
  lemma {:induction false} TotalAfterAdd(users: seq<User>, id: int, amount: int)
    ensures TotalCredits(AddToUser(users, id, amount)) == TotalCredits(users) + amount * CountId(users, id)
  {
    if users != [] {
      var r := AddToUser(users, id, amount);
      assert r[1..] == AddToUser(users[1..], id, amount);
      TotalAfterAdd(users[1..], id, amount);

    }
  }

  lemma {:induction false} UniqueIdCountsOnce(users: seq<User>, k: int)
    requires IdsUnique(users) && 0 <= k < |users|
    ensures CountId(users, users[k].id) == 1
  {
    if k == 0 {
      UnusedIdCountsZero(users[1..], users[0].id);
    } else {
      assert users[1..][k - 1] == users[k];
      UniqueIdCountsOnce(users[1..], k - 1);
    }
  }

  lemma {:induction false} UnusedIdCountsZero(users: seq<User>, id: int)
    requires forall i :: 0 <= i < |users| ==> users[i].id != id
    ensures CountId(users, id) == 0
  {
    if users != [] {
      assert forall i :: 0 <= i < |users[1..]| ==> users[1..][i] == users[i + 1];
      UnusedIdCountsZero(users[1..], id);
    }
  }

  /** With unique ids, adding to a listed user raises the total by exactly the amount. */
  lemma TotalAfterAddUnique(users: seq<User>, k: int, amount: int)
    requires IdsUnique(users) && 0 <= k < |users|
    ensures TotalCredits(AddToUser(users, users[k].id, amount)) == TotalCredits(users) + amount
  {
    TotalAfterAdd(users, users[k].id, amount);
    UniqueIdCountsOnce(users, k);
  }

  /** A selected user who is no longer in the list gains nothing and the total is unchanged. */
  lemma TotalAfterAddAbsent(users: seq<User>, id: int, amount: int)
    requires forall i :: 0 <= i < |users| ==> users[i].id != id
    ensures AddToUser(users, id, amount) == users
    ensures TotalCredits(AddToUser(users, id, amount)) == TotalCredits(users)
  {
  }

  /** The credits view: lists, loading flag, and the add-credits form state. */
  datatype CreditsView = CreditsView(
    users: seq<User>,
    codes: seq<RedeemCode>,
    loading: bool,
    selected: Option<User>,
    amountText: string,
    isAdding: bool)

  /** The initial joint fetch of users and codes; a failure of either discards both. */
  function LoadData(v: CreditsView, fetched: Option<(seq<User>, seq<RedeemCode>)>): (r: CreditsView)
    ensures !r.loading && r.selected == v.selected && r.amountText == v.amountText
    ensures fetched.Some? ==> r.users == fetched.value.0 && r.codes == fetched.value.1
    ensures fetched.None? ==> r.users == v.users && r.codes == v.codes
  {
    match fetched
    case Some(lists) => v.(users := lists.0, codes := lists.1, loading := false)
    case None => v.(loading := false)
  }

  /** Picking a user in the form; nothing else changes. */
  function SelectUser(v: CreditsView, u: User): (r: CreditsView)
    ensures r.selected == Some(u)
    ensures r.users == v.users && r.amountText == v.amountText && r.isAdding == v.isAdding
  {
    v.(selected := Some(u))
  }

  /** Typing into the amount field; nothing else changes. */
  function SetAmountText(v: CreditsView, text: string): (r: CreditsView)
    ensures r.amountText == text
    ensures r.users == v.users && r.selected == v.selected && r.isAdding == v.isAdding
  {
    v.(amountText := text)
  }

  /** How far a submission of the add-credits form got. */
  datatype AddStep = NotSubmitted | InvalidAmount | Requested

  /**
    Submitting the add-credits form. `amount` is the integer the amount text
    parses to and `reply` the backend's answer, consulted only when a request is made.
    A request is made exactly when a user is selected, the text is non-empty
    and the amount is positive. Only a `success` reply changes the list (the
    selected user's balance rises by the amount) and clears the form; in every
    case the busy flag ends up off.
   */
  function AddCredits(v: CreditsView, amount: int, reply: Reply<()>): (r: (CreditsView, AddStep))
    ensures r.1 == Requested <==> v.selected.Some? && v.amountText != "" && amount > 0
    ensures r.1 == InvalidAmount <==> v.selected.Some? && v.amountText != "" && amount <= 0
    ensures r.1 != Requested ==> r.0 == v
    ensures r.1 == Requested && !reply.Succeeded? ==> r.0 == v.(isAdding := false)
    ensures r.1 == Requested && reply.Succeeded? ==>
      && r.0.users == AddToUser(v.users, v.selected.value.id, amount)
      && r.0.selected == None && r.0.amountText == ""
      && r.0.codes == v.codes && !r.0.isAdding
  {
    if v.selected.None? || v.amountText == "" then (v, NotSubmitted)
    else if amount <= 0 then (v, InvalidAmount)
    else if reply.Succeeded? then
      (v.(users := AddToUser(v.users, v.selected.value.id, amount), amountText := "",
          selected := None, isAdding := false), Requested)
    else (v.(isAdding := false), Requested)
  }

  /** A successful submission for a listed user with unique ids raises the total by the amount. */
  lemma AddCreditsRaisesTotal(v: CreditsView, amount: int, k: int)
    requires IdsUnique(v.users) && 0 <= k < |v.users|
    requires v.selected == Some(v.users[k]) && v.amountText != "" && amount > 0
    ensures AddCredits(v, amount, Succeeded(())).1 == Requested
    ensures TotalCredits(AddCredits(v, amount, Succeeded(())).0.users) == TotalCredits(v.users) + amount
    ensures |AddCredits(v, amount, Succeeded(())).0.users| == |v.users|
  {
    TotalAfterAddUnique(v.users, k, amount);
  }

  predicate AddButtonEnabled(v: CreditsView) {
    v.selected.Some? && v.amountText != "" && !v.isAdding
  }

  /** Whenever the form's button is enabled, a submission gets past the selection check. */
  lemma EnabledButtonSubmits(v: CreditsView, amount: int, reply: Reply<()>)
    requires AddButtonEnabled(v)
    ensures AddCredits(v, amount, reply).1 != NotSubmitted
  {
  }

  /**
    Picking a user and typing a non-empty amount enables the button, and a
    positive amount then sends the request for exactly that user.
   */
  lemma FormFlowRequests(v: CreditsView, u: User, text: string, amount: int, reply: Reply<()>)
    requires !v.isAdding && text != ""
    ensures AddButtonEnabled(SetAmountText(SelectUser(v, u), text))
    ensures amount > 0 ==> AddCredits(SetAmountText(SelectUser(v, u), text), amount, reply).1 == Requested
    ensures amount > 0 && reply.Succeeded? ==>
      AddCredits(SetAmountText(SelectUser(v, u), text), amount, reply).0.users == AddToUser(v.users, u.id, amount)
  {
  }

  /** The four credit levels, lowest first. */
  datatype Level = GreenBeginner | EcoWarrior | GreenHero | EcoChampion

  function LevelRank(l: Level): nat {
    match l
    case GreenBeginner => 0
    case EcoWarrior => 1
    case GreenHero => 2
    case EcoChampion => 3
  }

  function LevelCaption(l: Level): string {
    match l
    case GreenBeginner => "Green Beginner"
    case EcoWarrior => "Eco Warrior"
    case GreenHero => "Green Hero"
    case EcoChampion => "Eco Champion"
  }

  /** The level of a balance: its rank is the number of thresholds 50, 100, 200 the balance reaches. */
  function LevelOf(credits: int): (l: Level)
    ensures LevelRank(l) == (if credits >= 50 then 1 else 0) + (if credits >= 100 then 1 else 0)
                            + (if credits >= 200 then 1 else 0)
  {
    if credits >= 200 then EcoChampion
    else if credits >= 100 then GreenHero
    else if credits >= 50 then EcoWarrior
    else GreenBeginner
  }

  /** More credits never give a lower level. */
  lemma LevelMonotone(a: int, b: int)
    requires a <= b
    ensures LevelRank(LevelOf(a)) <= LevelRank(LevelOf(b))
  {
  }

  predicate Eligible(u: User) {
    u.credits >= 100
  }

  /**
    A user is eligible for rewards exactly when their level is Green Hero or
    Eco Champion, which is what the level badge next to their name reads.
   */
  lemma EligibleIffHighLevel(u: User)
    ensures Eligible(u) <==> LevelOf(u.credits) == GreenHero || LevelOf(u.credits) == EcoChampion
    ensures Eligible(u) <==> LevelCaption(LevelOf(u.credits)) in {"Green Hero", "Eco Champion"}
  {
  }

  /** The "Eligible for Rewards" counter. */
  function EligibleCount(users: seq<User>): (n: nat)
    ensures n <= |users|
    ensures n == |users| <==> forall i :: 0 <= i < |users| ==> Eligible(users[i])
    ensures n > 0 <==> exists i :: 0 <= i < |users| && Eligible(users[i])
  {
    if users == [] then 0
    else
      assert forall i :: 1 <= i < |users| ==> users[i] == users[1..][i - 1];
      (if Eligible(users[0]) then 1 else 0) + EligibleCount(users[1..])
  }

  /**
    With unique ids, adding a positive amount to a listed user changes the
    eligible counter by one exactly when that user crosses the 100 mark, and
    leaves it unchanged otherwise.
   */
  lemma {:induction false} EligibleAfterAdd(users: seq<User>, k: int, amount: int)
    requires IdsUnique(users) && 0 <= k < |users| && amount > 0
    ensures EligibleCount(AddToUser(users, users[k].id, amount))
            == EligibleCount(users) + (if !Eligible(users[k]) && users[k].credits + amount >= 100 then 1 else 0)
  {
    var id := users[k].id;
    var r := AddToUser(users, id, amount);
    assert r[1..] == AddToUser(users[1..], id, amount);
    if k == 0 {
      TotalAfterAddAbsent(users[1..], id, amount);
    } else {
      assert users[1..][k - 1] == users[k];
      EligibleAfterAdd(users[1..], k - 1, amount);
    }
  }

  /** `Math.round` of `total / count`: the nearest integer, halves rounded up. */
  function RoundedQuotient(total: int, count: int): (r: int)
    requires count > 0
    ensures count * (2 * r - 1) <= 2 * total < count * (2 * r + 1)
  {
    var q := (2 * total + count) / (2 * count);
    var m := (2 * total + count) % (2 * count);
    assert 2 * total + count == 2 * count * q + m && 0 <= m < 2 * count;
    assert count * (2 * q - 1) == 2 * count * q - count;
    assert count * (2 * q + 1) == 2 * count * q + count;
    q
  }

  /**
    The "Avg Credits/User" counter: 0 for an empty list (the division yields
    NaN, which falls back to 0), otherwise the total over the count rounded half up.
   */
  function AverageCredits(users: seq<User>): (r: int)
    ensures |users| == 0 ==> r == 0
    ensures |users| > 0 ==> |users| * (2 * r - 1) <= 2 * TotalCredits(users) < |users| * (2 * r + 1)
  {
    if |users| == 0 then 0 else RoundedQuotient(TotalCredits(users), |users|)
  }

  /** At most this many redeem codes are listed. */
  const RecentLimit: nat := 5

  predicate ShowsViewAll(codes: seq<RedeemCode>) {
    |codes| > RecentLimit
  }

  predicate ShowsNoCodesPlaceholder(codes: seq<RedeemCode>) {
    |codes| == 0
  }

  /**
    The listed codes: a prefix of the codes of at most five entries, which is
    the whole list unless "View All Redemptions" is shown.
   */
  function RecentCodes(codes: seq<RedeemCode>): (r: seq<RedeemCode>)
    ensures |r| == if |codes| <= RecentLimit then |codes| else RecentLimit
    ensures r == codes[..|r|]
    ensures r != codes <==> ShowsViewAll(codes)
    ensures r == [] <==> ShowsNoCodesPlaceholder(codes)
  {
    if |codes| <= RecentLimit then codes else codes[..RecentLimit]
  }

  /** Position of the first user with id `id`, if any. */
  function FindUser(users: seq<User>, id: int): (r: Option<nat>)
    ensures r.None? <==> forall i :: 0 <= i < |users| ==> users[i].id != id
    ensures r.Some? ==> r.value < |users| && users[r.value].id == id
    ensures r.Some? ==> forall j :: 0 <= j < r.value ==> users[j].id != id
  {
    if users == [] then None
    else if users[0].id == id then Some(0)
    else
      assert forall i :: 1 <= i < |users| ==> users[i] == users[1..][i - 1];
      match FindUser(users[1..], id)
      case None => None
      case Some(k) => Some(k + 1)
  }

  /**
    The owner line of a redeem code: the name of the first user with the
    code's user id, or `User <id>` when there is none or that name is empty.
   */
  function OwnerCaption(users: seq<User>, code: RedeemCode): (r: string)
    ensures (forall i :: 0 <= i < |users| ==> users[i].id != code.userId) ==>
      r == "User " + DecimalText(code.userId)
    ensures forall k :: (0 <= k < |users| && users[k].id == code.userId
                         && (forall j :: 0 <= j < k ==> users[j].id != code.userId)) ==>
      r == (if users[k].name != "" then users[k].name else "User " + DecimalText(code.userId))
  {
    match FindUser(users, code.userId)
    case Some(k) =>
      assert forall k' :: (0 <= k' < |users| && users[k'].id == code.userId
                           && (forall j :: 0 <= j < k' ==> users[j].id != code.userId)) ==> k' == k;
      if users[k].name != "" then users[k].name else "User " + DecimalText(code.userId)
    case None => "User " + DecimalText(code.userId)
  }
}

=== FILE: onboarding.dfy ===
/**
 The onboarding slideshow shown to new users: a slide counter over four
 slides that either advances or fires completion on the last slide, a
 "watching" flag that disables the Next button, and the one-shot timer that
 watching a video arms to move on by one slide.
 */
module Onboarding {
  import opened Common

  /** Number of slides in the training slideshow. */
  const SlideCount: nat := 4

  const LastSlide: nat := SlideCount - 1

  /**
    The slideshow's state. `timer` is the pending "video finished" callback,
    holding the slide index it captured when it was armed.
   */
  datatype Stepper = Stepper(current: nat, watching: bool, timer: Option<nat>)

  /**
    The slide index points at an existing slide, and a pending timer exists
    only while watching and captured the slide still shown.
   */
  predicate Valid(s: Stepper) {
    && s.current < SlideCount
    && (s.timer.Some? ==> s.watching && s.timer.value == s.current)
  }

  const Initial := Stepper(0, false, None)

  /** The state after an action, and whether the completion callback fired. */
  datatype Step = Step(next: Stepper, completed: bool)

  /**
    "Next": before the last slide it moves one slide on; on the last slide it
    fires completion and leaves the slide where it is.
   */
  function NextSlide(s: Stepper): (r: Step)
    ensures r.completed <==> s.current >= LastSlide
    ensures !r.completed ==> r.next.current == s.current + 1
    ensures r.completed ==> r.next == s
    ensures r.next.watching == s.watching && r.next.timer == s.timer
    ensures Valid(s) && s.timer.None? ==> Valid(r.next)
  {
    if s.current < SlideCount - 1 then Step(s.(current := s.current + 1), false)
    else Step(s, true)
  }

  /**
    "Watch Training Video": raises the watching flag and arms the timer, which
    captures the slide shown now; the slide itself does not change.
   */
  function StartWatching(s: Stepper): (r: Stepper)
    ensures r.watching && r.current == s.current
    ensures r.timer == Some(s.current)
    ensures Valid(s) ==> Valid(r)
  {
    s.(watching := true, timer := Some(s.current))
  }

  /** Percentage of the progress bar: a quarter per slide reached, 100 only on the last slide. */
  function Progress(s: Stepper): (r: real)
    ensures r == 25.0 * (s.current + 1) as real
    ensures Valid(s) ==> r == 25.0 || r == 50.0 || r == 75.0 || r == 100.0
    ensures r == 100.0 <==> s.current == LastSlide
  {
    ((s.current + 1) as real / SlideCount as real) * 100.0
  }

  /** Each move to the next slide fills another quarter of the bar. */
  lemma ProgressAdvancesByQuarter(s: Stepper)
    requires Valid(s) && s.current < LastSlide
    ensures Progress(NextSlide(s).next) == Progress(s) + 25.0
  {
  }

  predicate NextEnabled(s: Stepper) {
    !s.watching
  }

  /** The caption of the Next button. */
  function NextCaption(s: Stepper): (r: string)
    ensures r == "Complete Training" <==> s.current == LastSlide
  {
    if s.current == SlideCount - 1 then "Complete Training" else "Next Slide"
  }

  /** A click on Next, a click on the watch button, or the timer going off. */
  datatype Event = ClickNext | ClickWatch | TimerFires

  /**
    One event. A click on a disabled Next button does nothing, the watch
    button is only rendered while not watching, and the timer runs "Next" from
    the slide it captured, whatever the watching flag says, and only once.
   */
  function Apply(s: Stepper, e: Event): (r: Step)
    ensures Valid(s) ==> Valid(r.next)
    ensures Valid(s) && r.completed ==>
      && s.current == LastSlide
      && ((e == ClickNext && NextEnabled(s)) || (e == TimerFires && s.timer.Some?))
    ensures Valid(s) ==> s.current <= r.next.current <= s.current + 1
    ensures s.watching ==> r.next.watching
  {
    match e
    case ClickNext => if NextEnabled(s) then NextSlide(s) else Step(s, false)
    case ClickWatch => if s.watching then Step(s, false) else Step(StartWatching(s), false)
    case TimerFires =>
      match s.timer
      case None => Step(s, false)
      case Some(slide) => NextSlide(s.(current := slide, timer := None))
  }

  /**
    A sequence of events: the final state and, for each time the completion
    callback fired, the slide it fired on. From a valid state the slide index
    stays in range, never goes back, grows by at most one per event, and
    completion only ever fires on the last slide; watching is never switched off.
   */
  function Run(s: Stepper, es: seq<Event>): (r: (Stepper, seq<nat>))
    ensures Valid(s) ==> Valid(r.0)
    ensures s.watching ==> r.0.watching
    ensures Valid(s) ==> s.current <= r.0.current <= s.current + |es|
    ensures Valid(s) ==> forall i :: 0 <= i < |r.1| ==> r.1[i] == LastSlide
    decreases |es|
  {
    if es == [] then (s, [])
    else
      var st := Apply(s, es[0]);
      var rest := Run(st.next, es[1..]);
      (rest.0, (if st.completed then [s.current] else []) + rest.1)
  }

  /** Starting from the first slide, every reachable slide exists. */
  lemma RunFromInitialStaysValid(es: seq<Event>)
    ensures Valid(Run(Initial, es).0)
    ensures Run(Initial, es).0.current <= |es|
    ensures forall i :: 0 <= i < |Run(Initial, es).1| ==> Run(Initial, es).1[i] == LastSlide
  {
  }

  /**
    Once a watched video has moved the slideshow on, it is stuck: Next stays
    disabled, the watch button stays hidden, and no event changes the slide or
    fires completion any more.
   */
  lemma {:induction false} StuckAfterWatching(s: Stepper, es: seq<Event>)
    requires Valid(s) && s.watching && s.timer.None?
    ensures Run(s, es).0 == s && Run(s, es).1 == []
    decreases |es|
  {
    if es != [] {
      assert Apply(s, es[0]) == Step(s, false);
      StuckAfterWatching(s, es[1..]);
    }
  }
}

=== FILE: reports.dfy ===
/**
 The report review workflow of the admin reports view: report records, the
 three review statuses and the forward-only transitions the view offers, the
 status-overwrite merge, the counters, and the priority banner.
 */
module Reports {
  import opened Common

  /** A report as fetched; `status` is the backend's text, which may be any string. */
  datatype Report = Report(
    id: int,
    userId: int,
    complaintId: int,
    description: string,
    status: string,
    createdAt: string)

  datatype Status = Pending | Reviewed | Resolved

  function StatusName(s: Status): string {
    match s
    case Pending => "pending"
    case Reviewed => "reviewed"
    case Resolved => "resolved"
  }

  /** Position in the review order pending < reviewed < resolved. */
  function Rank(s: Status): nat {
    match s
    case Pending => 0
    case Reviewed => 1
    case Resolved => 2
  }

  function ParseStatus(text: string): (r: Option<Status>)
    ensures r.Some? ==> StatusName(r.value) == text
    ensures r.None? ==> forall s: Status :: StatusName(s) != text
  {
    if text == "pending" then Some(Pending)
    else if text == "reviewed" then Some(Reviewed)
    else if text == "resolved" then Some(Resolved)
    else None
  }

  function StatusBadgeOf(s: Status): Badge {
    match s
    case Pending => Badge("Pending", Secondary)
    case Reviewed => Badge("Reviewed", Default)
    case Resolved => Badge("Resolved", Default)
  }

  /** The badge of a status text: a known status' own badge, otherwise the `pending` badge. */
  function StatusBadge(text: string): (b: Badge)
    ensures ParseStatus(text).Some? ==> b == StatusBadgeOf(ParseStatus(text).value)
    ensures ParseStatus(text).None? ==> b == StatusBadgeOf(Pending)
  {
    if text == "reviewed" then Badge("Reviewed", Default)
    else if text == "resolved" then Badge("Resolved", Default)
    else Badge("Pending", Secondary)
  }

  /**
    The status changes a report card offers, in button order: a pending report
    offers "reviewed" and "resolved", a reviewed one only "resolved", and
    every other status text nothing. Each offered change moves strictly forward.
   */
  function OfferedTransitions(status: string): (r: seq<string>)
    ensures r != [] <==> ParseStatus(status) == Some(Pending) || ParseStatus(status) == Some(Reviewed)
    ensures forall i :: 0 <= i < |r| ==>
      ParseStatus(status).Some? && ParseStatus(r[i]).Some?
      && Rank(ParseStatus(r[i]).value) > Rank(ParseStatus(status).value)
  {
    if status == "pending" then ["reviewed", "resolved"]
    else if status == "reviewed" then ["resolved"]
    else []
  }

  /** The review workflow as a relation between known statuses. */
  predicate Offers(from: Status, to: Status) {
    StatusName(to) in OfferedTransitions(StatusName(from))
  }

  /**
    The offered moves are exactly pending to reviewed, pending to resolved and
    reviewed to resolved; resolved is terminal.
   */
  lemma OffersCharacterised(from: Status, to: Status)
    ensures Offers(from, to) <==> (from == Pending && to != Pending) || (from == Reviewed && to == Resolved)
  {
  }

  /**
    A report with an unknown status is drawn with the `pending` badge, yet it
    offers no review actions, unlike a report that really is pending.
   */
  lemma UnknownStatusLooksPending(text: string)
    requires ParseStatus(text).None?
    ensures StatusBadge(text) == StatusBadge("pending")
    ensures OfferedTransitions(text) == [] && OfferedTransitions("pending") != []
  {
  }

  /** Every report with id `id` takes the status `status`; all other fields and reports stay. */
  function SetStatusById(rs: seq<Report>, id: int, status: string): (r: seq<Report>)
    ensures |r| == |rs|
    ensures forall i :: 0 <= i < |rs| ==> r[i] == (if rs[i].id == id then rs[i].(status := status) else rs[i])
  {
    if rs == [] then []
    else [if rs[0].id == id then rs[0].(status := status) else rs[0]] + SetStatusById(rs[1..], id, status)
  }

  predicate IdsUnique(rs: seq<Report>) {
    forall i, j :: 0 <= i < j < |rs| ==> rs[i].id != rs[j].id
  }

  /** An update for an id that is not listed changes nothing. */
  lemma SetStatusByIdAbsent(rs: seq<Report>, id: int, status: string)
    requires forall i :: 0 <= i < |rs| ==> rs[i].id != id
    ensures SetStatusById(rs, id, status) == rs
  {
  }

  /**
    A status update request: with a `success` reply the report with the
    requested id takes the requested status and keeps every other field; any
    other outcome leaves the list as it was.
   */
  function UpdateReportStatus(rs: seq<Report>, reportId: int, status: string, reply: Reply<()>): (r: seq<Report>)
    ensures |r| == |rs|
    ensures !reply.Succeeded? ==> r == rs
    ensures reply.Succeeded? ==> forall i :: 0 <= i < |rs| ==>
      && r[i].id == rs[i].id && r[i].userId == rs[i].userId && r[i].complaintId == rs[i].complaintId
      && r[i].description == rs[i].description && r[i].createdAt == rs[i].createdAt
      && r[i].status == (if rs[i].id == reportId then status else rs[i].status)
  {
    if reply.Succeeded? then SetStatusById(rs, reportId, status) else rs
  }

  /** Number of reports whose status text is exactly `status`. */
  function CountStatus(rs: seq<Report>, status: string): (n: nat)
    ensures n <= |rs|
    ensures n > 0 <==> exists i :: 0 <= i < |rs| && rs[i].status == status
  {
    if rs == [] then 0
    else
      assert forall i :: 1 <= i < |rs| ==> rs[i] == rs[1..][i - 1];
      (if rs[0].status == status then 1 else 0) + CountStatus(rs[1..], status)
  }

  /**
    With unique ids, overwriting the status of the report with id `id` moves
    exactly that report from its old status' counter to the new one's.
   */
  lemma {:induction false} CountAfterSetStatus(rs: seq<Report>, id: int, st: string, k: int, status: string)
    requires IdsUnique(rs) && 0 <= k < |rs| && rs[k].id == id
    ensures CountStatus(SetStatusById(rs, id, st), status)
            == CountStatus(rs, status) - (if rs[k].status == status then 1 else 0)
                                       + (if st == status then 1 else 0)
  {
    var r := SetStatusById(rs, id, st);
    assert r[1..] == SetStatusById(rs[1..], id, st);
    if k == 0 {
      SetStatusByIdAbsent(rs[1..], id, st);
    } else {
      CountAfterSetStatus(rs[1..], id, st, k - 1, status);
    }
  }

  predicate AllStatusesKnown(rs: seq<Report>) {
    forall i :: 0 <= i < |rs| ==> ParseStatus(rs[i].status).Some?
  }

  function KnownStatusTotal(rs: seq<Report>): nat {
    CountStatus(rs, "pending") + CountStatus(rs, "reviewed") + CountStatus(rs, "resolved")
  }

  /** The three counters add up to the number of reports exactly when every status is known. */
  lemma {:induction false} StatusCountsPartition(rs: seq<Report>)
    ensures KnownStatusTotal(rs) <= |rs|
    ensures KnownStatusTotal(rs) == |rs| <==> AllStatusesKnown(rs)
  {
    if rs != [] {
      StatusCountsPartition(rs[1..]);
      assert forall i :: 1 <= i < |rs| ==> rs[i] == rs[1..][i - 1];
      if !AllStatusesKnown(rs[1..]) {
        var j :| 0 <= j < |rs[1..]| && ParseStatus(rs[1..][j].status).None?;
        assert ParseStatus(rs[j + 1].status).None?;
      }
    }
  }

  /** An update to a known status keeps every status known, so the counters still add up. */
  lemma UpdateKeepsCountersComplete(rs: seq<Report>, reportId: int, status: string, reply: Reply<()>)
    requires AllStatusesKnown(rs) && ParseStatus(status).Some?
    ensures AllStatusesKnown(UpdateReportStatus(rs, reportId, status, reply))
    ensures KnownStatusTotal(UpdateReportStatus(rs, reportId, status, reply)) == |rs|
  {
    StatusCountsPartition(UpdateReportStatus(rs, reportId, status, reply));
  }

  /** The "Priority Action Required" section is shown. */
  predicate ShowsPriorityBanner(rs: seq<Report>) {
    CountStatus(rs, "pending") > 0
  }

  /** The banner appears exactly when some report is pending. */
  lemma PriorityBannerIffPending(rs: seq<Report>)
    ensures ShowsPriorityBanner(rs) <==> exists i :: 0 <= i < |rs| && ParseStatus(rs[i].status) == Some(Pending)
  {
    if ShowsPriorityBanner(rs) {
      var i :| 0 <= i < |rs| && rs[i].status == "pending";
      assert ParseStatus(rs[i].status) == Some(Pending);
    }
  }

  /** The "No Reports" placeholder replaces the list. */
  predicate ShowsEmptyPlaceholder(rs: seq<Report>) {
    |rs| == 0
  }

  /** With the placeholder shown every counter is 0 and no banner is shown. */
  lemma EmptyPlaceholderCounters(rs: seq<Report>)
    requires ShowsEmptyPlaceholder(rs)
    ensures CountStatus(rs, "pending") == 0 && CountStatus(rs, "reviewed") == 0
    ensures CountStatus(rs, "resolved") == 0 && !ShowsPriorityBanner(rs)
  {
  }

  datatype ReportsView = ReportsView(reports: seq<Report>, loading: bool)

  /** The initial fetch: a fetched list replaces the view's; loading ends either way. */
  function LoadReports(v: ReportsView, fetched: Option<seq<Report>>): (r: ReportsView)
    ensures !r.loading
    ensures r.reports == (if fetched.Some? then fetched.value else v.reports)
  {
    match fetched
    case Some(rs) => ReportsView(rs, false)
    case None => v.(loading := false)
  }
}

=== FILE: session.dfy ===
/**
 The session store: who is logged in, over a key/value browser storage that
 keeps the session across reloads. Two states (no user / user); startup
 restores a stored session, login writes one, logout clears it, and a credit
 update rewrites the stored user.
 */
module Session {
  import opened Common

  datatype Role = UserRole | AdminRole

  datatype User = User(id: int, name: string, email: string, role: Role, credits: int)

  /**
    A storage value: a serialised user record, or plain text. A serialised
    record is never the empty string.
   */
  datatype Stored = UserJson(user: User) | Text(text: string)

  type Storage = map<string, Stored>

  const UserKey := "user"
  const TokenKey := "token"
  /** Set elsewhere once the onboarding slideshow was shown; cleared on logout. */
  const SeenVideoKey := "hasSeenVideo"

  /** The store's state: the current user, the startup flag, and the browser storage. */
  datatype Auth = Auth(user: Option<User>, isLoading: bool, storage: Storage)

  /** The state before the startup check has run. */
  function Mounted(storage: Storage): Auth {
    Auth(None, true, storage)
  }

  /** Reading `key` yields a value that is not the empty string (a truthy read). */
  predicate Present(storage: Storage, key: string) {
    key in storage && (storage[key].Text? ==> storage[key].text != "")
  }

  /** The text `JSON.stringify` gives for no value; parsing it back yields `null`. */
  const NullText := "null"

  /**
    Outcome of the startup check: the new state, or a stored `user` text that
    does not parse back to a user record (the parse throws, or yields some
    other value; the model does not tell these apart).
   */
  datatype Restored = Restored(auth: Auth) | Unparsable

  /**
    The startup check: it parses the `user` value only when both the `user`
    and the `token` reads are truthy. A stored record is restored, the text
    `null` parses to no user, and any other text is not a user record. When
    the check gets past the parse, loading ends.
   */
  function Restore(storage: Storage): (r: Restored)
    ensures r.Unparsable? <==>
      && Present(storage, UserKey) && Present(storage, TokenKey)
      && storage[UserKey].Text? && storage[UserKey].text != NullText
    ensures r.Restored? ==> !r.auth.isLoading && r.auth.storage == storage
    ensures r.Restored? ==>
      (r.auth.user.Some? <==> Present(storage, UserKey) && Present(storage, TokenKey) && storage[UserKey].UserJson?)
    ensures r.Restored? && r.auth.user.Some? ==> storage[UserKey] == UserJson(r.auth.user.value)
  {
    var a := Mounted(storage);
    if Present(storage, UserKey) && Present(storage, TokenKey) then
      match storage[UserKey]
      case UserJson(u) => Restored(a.(user := Some(u), isLoading := false))
      case Text(t) => if t == NullText then Restored(a.(isLoading := false)) else Unparsable
    else Restored(a.(isLoading := false))
  }

  /** What a successful login returns: the user record and the session token. */
  datatype Grant = Grant(user: User, token: string)

  /**
    Login: a `success` reply makes its user current, stores the user and the
    token, leaves every other key alone and answers true; a declined or failed
    request answers false and changes nothing.
   */
  function Login(a: Auth, reply: Reply<Grant>): (r: (Auth, bool))
    ensures r.1 <==> reply.Succeeded?
    ensures !r.1 ==> r.0 == a
    ensures r.1 ==> && r.0.user == Some(reply.payload.user)
                    && r.0.isLoading == a.isLoading
                    && r.0.storage.Keys == a.storage.Keys + {UserKey, TokenKey}
                    && r.0.storage[UserKey] == UserJson(reply.payload.user)
                    && r.0.storage[TokenKey] == Text(reply.payload.token)
    ensures forall k :: k in a.storage && k != UserKey && k != TokenKey ==> r.0.storage[k] == a.storage[k]
  {
    match reply
    case Succeeded(g) =>
      (a.(user := Some(g.user), storage := a.storage[UserKey := UserJson(g.user)][TokenKey := Text(g.token)]), true)
    case _ => (a, false)
  }

  /** Logout: no user, and exactly the `user`, `token` and `hasSeenVideo` keys removed. */
  function Logout(a: Auth): (r: Auth)
    ensures r.user.None? && r.isLoading == a.isLoading
    ensures r.storage.Keys == a.storage.Keys - {UserKey, TokenKey, SeenVideoKey}
    ensures forall k :: k in r.storage ==> r.storage[k] == a.storage[k]
  {
    a.(user := None, storage := a.storage - {UserKey, TokenKey, SeenVideoKey})
  }

  lemma LogoutIdempotent(a: Auth)
    ensures Logout(Logout(a)) == Logout(a)
  {
  }

  /**
    Setting the current user's balance: logged out it is a no-op; logged in
    only the `credits` field changes, the stored user is rewritten and every
    other key, the token included, stays.
   */
  function UpdateCredits(a: Auth, credits: int): (r: Auth)
    ensures a.user.None? ==> r == a
    ensures a.user.Some? ==>
      && r.user.Some?
      && r.user.value.credits == credits
      && r.user.value.id == a.user.value.id && r.user.value.name == a.user.value.name
      && r.user.value.email == a.user.value.email && r.user.value.role == a.user.value.role
      && r.storage.Keys == a.storage.Keys + {UserKey}
      && r.storage[UserKey] == UserJson(r.user.value)
    ensures forall k :: k in a.storage && k != UserKey ==> r.storage[k] == a.storage[k]
    ensures r.isLoading == a.isLoading
  {
    match a.user
    case None => a
    case Some(u) =>
      var updated := u.(credits := credits);
      a.(user := Some(updated), storage := a.storage[UserKey := UserJson(updated)])
  }

  /**
    After a successful login, a reload restores the same user exactly when the
    token is non-empty; with an empty token the session is silently lost.
   */
  lemma LoginThenRestore(a: Auth, g: Grant)
    ensures Restore(Login(a, Succeeded(g)).0.storage).Restored?
    ensures Restore(Login(a, Succeeded(g)).0.storage).auth.user == (if g.token != "" then Some(g.user) else None)
  {
  }

  /** After logout a reload finds no session. */
  lemma LogoutThenRestore(a: Auth)
    ensures Restore(Logout(a).storage) == Restored(Auth(None, false, Logout(a).storage))
  {
  }

  /** After a credit update a reload restores the updated user, provided a token is stored. */
  lemma UpdateCreditsThenRestore(a: Auth, credits: int)
    requires a.user.Some? && Present(a.storage, TokenKey)
    ensures Restore(UpdateCredits(a, credits).storage).Restored?
    ensures Restore(UpdateCredits(a, credits).storage).auth.user == UpdateCredits(a, credits).user
  {
  }
}
